=== FILE: README.md ===
# Garden log — a Dafny model of its data core

`garden_log.py` is a Streamlit page for a personal garden tracker. Beneath
the widgets it keeps one session document with three parts:

- an **inventory**: a map from category key (`"vegetables"`, `"fruits"`) to
  the ordered list of plant names in that category;
- a **log**: an ordered list of care records (date, section, plant, batch
  key, action, metrics, notes, next visit), identified for editing and
  deletion only by their position;
- a **layout**: a map from section name to a section of `rows` x `cols`
  tiles, each tile holding one plant name or `""`.

This project states each page action as a pure transition on an explicit
`Garden.State` value and proves what the actions promise: the
inventory-add frame, the newest-first listing's index pairing, what
save-edit and delete change (and what they leave alone), the sorted
duplicate-free batch-key list, the stable date sort of a batch timeline,
and the shape of the layout grids.

Modules follow the program's parts:

- `Wrappers` (`wrappers.dfy`): `Option` and `Result`. `Err` stands for the
  exception Python would raise.
- `PyList` (`pylist.dfy`): the Python list operations the page relies on.
  These are `list[i] = x`, `list.pop(i)`, `list.index(x)` and `reversed`.
  Python's index rules are kept: a negative index counts from the end, and
  any other out-of-range index raises `IndexError`.
- `Strings` (`strings.dfy`): Python's string order (lexicographic by code
  point), proved a total order; `str.lower()` on ASCII text; ascending
  duplicate-free lists.
- `Inventory`, `LogStore`, `Reports`, `Layout`: the logic of the four pages.
- `Garden` (`garden.dfy`): the session document and the page actions on it.

Facts about `garden_log.py` that shape the model:

- The inventory has two categories, `vegetables` and `fruits` (line 11).
- A tile holds one plant name or `""` (lines 171, 193).
- Edit and delete index the log with Python's list rules (lines 123, 128).
  A negative index wraps from the end, and any other out-of-range index
  raises `IndexError`.

## Model

| member | source | states |
|---|---|---|
| Garden.Init | garden_log.py:9-14 | a new session's inventory has exactly the two keys `vegetables` and `fruits`, both lists empty; there are no logs and no sections; it offers no plants and every section is well shaped |
| Inventory.KeyNamesDocumentKeys | garden_log.py:39-43 | `item_type.lower() + "s"` turns the two type labels into exactly the document keys `"vegetables"` and `"fruits"`, which differ |
| Inventory.Add | garden_log.py:41-43 | an empty name leaves the inventory unchanged; a missing category raises KeyError; otherwise the name is appended at the end of exactly the chosen category; the other categories and the key set are unchanged; duplicates are allowed |
| Garden.AddToInventory | garden_log.py:41-43 | an empty name leaves the state unchanged; otherwise the name is appended at the end of the chosen category, the key set and every other category are unchanged, and logs and layout are untouched; a missing category key raises KeyError for that key |
| Inventory.Plants | garden_log.py:59 | the plant choices are the vegetables followed by the fruits; a missing key raises KeyError for `"vegetables"` before `"fruits"` |
| Inventory.AddedPlantIsOffered | garden_log.py:41-59 | a plant just added under either category is among the choices afterwards, and there is one more choice |
| Garden.LogFormSections | garden_log.py:56-58 | the log form offers the layout's section names, or the four default sections when the layout is empty; it never offers nothing |
| LogStore.DefaultBatchKey | garden_log.py:66 | the proposed batch key is the plant name, then `-Set-`, then the date |
| LogStore.Append | garden_log.py:85 | submitting keeps every earlier record at its position and adds the new record as the last one, one longer |
| Garden.SubmitLog | garden_log.py:74-85 | submitting a record changes only the log; the log grows by that one record at the end |
| LogStore.Listing | garden_log.py:92-93 | one row per record; the index paired with each row is in bounds and designates exactly the record the row shows; row `i` carries index `n-1-i`, so the newest record comes first |
| LogStore.ListingPairsTrueIndex | garden_log.py:92-93 | every paired index is in bounds and designates exactly the record shown beside it |
| LogStore.ListingIndexBijection | garden_log.py:92-93 | different rows get different indices, and the indices are exactly `0 .. n-1` |
| LogStore.AppendListsFirst | garden_log.py:85-93 | a newly submitted record is listed first, with index `n`; the earlier rows follow unchanged |
| LogStore.SaveEdit | garden_log.py:123 | saving at an index in range replaces the record at that index, counted from the end when negative, wholesale; the length and every other record are unchanged; any other index raises IndexError |
| LogStore.SaveThroughListing | garden_log.py:92-123 | saving from row `i` shows the edited record in row `i` with the same index; every other row is unchanged |
| Garden.SaveListed | garden_log.py:92-123 | the save action replaces only the record shown in the row it was made from, and only the log changes |
| LogStore.Delete | garden_log.py:128 | `pop(idx)` removes exactly the record at `idx`, counted from the end when negative: one shorter, earlier records in place, later records one position down; any other index raises IndexError |
| LogStore.DeleteThroughListing | garden_log.py:92-128 | after deleting row `i`, newer rows keep their record with an index one lower; older rows move up one place unchanged |
| Garden.DeleteListed | garden_log.py:92-128 | the delete action removes exactly the record shown in its row, shifts the later records down, and changes only the log |
| LogStore.ContinuingAfterDeleteMispairs | garden_log.py:92-130 | if the loop over `reversed(logs)` carried on after a `pop`, the next row would show record `idx-1` but compute index `idx-2`, so later rows would be paired with the wrong index |
| LogStore.ContinuingAfterDeleteWraps | garden_log.py:92-130 | the same continuation after deleting record 1: the next row shows the oldest record, but the computed index is -1, which Python wraps to the newest remaining record, so a save through that row overwrites the newest record and leaves the shown one unchanged |
| Garden.DeleteThenSave | garden_log.py:92-130 | a delete and then a save made from a later rendering writes to the record that row shows; every other surviving record keeps its value |
| Strings.StrictlySortedUnique | garden_log.py:141 | an ascending duplicate-free list is determined by its elements alone |
| Reports.BatchKeys | garden_log.py:141 | the key list is strictly ascending in Python string order, so it has no duplicates, and it holds exactly the batch keys present in the log |
| Reports.BatchKeysCanonical | garden_log.py:141 | any strictly ascending list of exactly the log's keys equals the computed key list |
| Reports.BatchKeysIgnoreOrder | garden_log.py:141 | the key list depends only on which records the log holds, not on their order |
| Reports.ForKey | garden_log.py:147 | the filter holds each record of the chosen batch as often as the log does, and nothing else |
| Reports.InsertByDate | garden_log.py:148 | one insertion step keeps the list ascending by date, adds exactly the new record, and places it after the records of its own date |
| Reports.SortByDate | garden_log.py:148 | the sort by date is ascending, is a permutation of its input, and is stable: the records of each date keep their input order |
| Reports.StableSortUnique | garden_log.py:148 | two lists that are ascending by date and agree on the ordered records of every date are equal, so a stable sort has one possible result |
| Reports.Timeline | garden_log.py:147-148 | the timeline is ascending by date; it holds exactly the chosen batch's records with their multiplicities; records of equal date keep their filtered order |
| Reports.TimelineIsStableSort | garden_log.py:147-148 | every list ascending by date that keeps each date's records in filtered order is the timeline |
| Reports.ForKeyOnDateCommute | garden_log.py:147-148 | filtering by batch and then by date yields the same records, in log order, as filtering by date and then by batch |
| Reports.TimelineKeepsLogOrder | garden_log.py:147-148 | within a date, the timeline lists the batch's records in the order they were logged |
| Reports.ListedKeyHasTimeline | garden_log.py:141-148 | every key the select box offers has a non-empty timeline |
| Layout.AddSection | garden_log.py:169-171 | a non-empty name gets a 3 x 3 section of blank tiles, replacing any section of that name; other sections are untouched; an empty name changes nothing |
| Garden.AddSection | garden_log.py:169-171 | an empty name leaves the state unchanged; a non-empty name adds or replaces that section with a 3 x 3 grid of blank tiles; every other section, the inventory and the logs are untouched; a layout whose sections were all well shaped stays so |
| Layout.BlankGrid | garden_log.py:183 | the new grid has `rows` rows of `cols` cells, all `""` |
| Layout.Resize | garden_log.py:181-183 | changed counts give a blank grid of exactly the new shape, whatever the old contents were; unchanged counts leave the section untouched |
| Layout.ResizeKeepsShape | garden_log.py:181-183 | a well-shaped section stays well shaped under any resize and takes the requested counts |
| Layout.ResizeSection | garden_log.py:177-183 | the selected section takes the new counts; on changed counts its grid is blank and of the new shape, on equal counts it is untouched; the other sections and the section names are unchanged |
| Garden.ResizeSection | garden_log.py:177-183 | only the layout changes, and only in the selected section, which takes the new counts; on changed counts its grid is blank and of the new shape, on equal counts it is untouched; a layout whose sections were all well shaped stays so |
| Layout.SectionChoices | garden_log.py:166-174 | the section select box never offers nothing; it offers every existing section, and the only other choice it can offer is the placeholder, and only when there are no sections |
| Layout.PlaceholderHidesRealSection | garden_log.py:174-176 | a section named "No sections yet" is offered and exists, yet the written test keeps its editor closed |
| Layout.OpensEditorExactlyForSections | garden_log.py:174-176 | the intended test opens the editor exactly for real sections; it agrees with the written test whenever no section has the placeholder's name |
| Layout.DefaultIndex | garden_log.py:194 | a tile's select box starts at the first position of the current value when the options contain it, and at option 0 otherwise |
| Layout.Choice | garden_log.py:193-194 | a tile's new value is always an option: the user's pick, else the current value if it is an option, else option 0 |
| Layout.AssignCells | garden_log.py:187-195 | the tile loop keeps the grid's shape; every tile ends holding an option: its pick, else its old value if that is an option, else option 0 |
| Garden.AssignTiles | garden_log.py:187-195 | with options `[""] + vegetables + fruits`, a picked tile holds the picked option; an unpicked tile keeps a value that is an inventory plant and becomes `""` otherwise; so every tile ends `""` or an inventory plant; the grid shape is kept; only the selected section changes; a missing inventory key raises the KeyError of the plant choices |

## Left out

- Streamlit widgets, page layout, messages and widget keys are not modelled. They are display only. A widget's value is a parameter of the action that reads it.
- JSON upload (`json.load`) and download (`json.dumps`) are not modelled. They are I/O. The document is the `Garden.State` value itself.
- Each action is a separate transition on the state, so `st.experimental_rerun` is not modelled as a step. `LogStore.ContinuingAfterDeleteMispairs` states what the loop would pair had it continued after a delete.
- Dates are opaque ISO strings compared in Python string order. `datetime.date.fromisoformat` and the `+ timedelta(days=3)` default for the next visit are left out. They are calendar arithmetic done by the date widgets.
- Height and moisture are floats, and the number inputs enforce their bounds. They are carried as an opaque `Metrics` record and never inspected.
- The edit form builds the edited record field by field from widgets. The model takes the finished record as a parameter. Saving replaces the record wholesale either way.
- An empty inventory makes the plant select box return `None`. The default key then reads `"None-Set-..."`. This is not modelled, because the plant is a string parameter.
- Layout.Resize: rows and columns are any natural number, not the 1 to 10 the number inputs allow. The proved shape holds for every count.
- Garden.AssignTiles: requires every section to be well shaped. Only an imported document can break that. Import is not modelled, and every modelled action keeps sections well shaped. A grid with fewer than `rows` rows, or a row shorter than `cols`, makes Python raise IndexError in the tile loop. A grid larger than its counts is walked without error, and its extra cells are kept unchanged. Neither case is modelled.
- Garden.LogFormSections: returns the section choices as a set. The code builds a list in the layout's insertion order, and the first entry is preselected. A Dafny map has no insertion order, so which section is preselected is not modelled.
- Layout.SectionChoices: returns the choices as a set, for the same reason. The insertion order, and so the preselected section, is not modelled.
- `Strings.Lower` lower-cases ASCII letters only. It is applied only to the ASCII labels "Vegetable" and "Fruit".

## Findings

| source | as written | input that shows it | evidently intended | confidence | as-written member | corrected member |
|---|---|---|---|---|---|---|
| garden_log.py:174-176 | the section editor opens when the selected name differs from the placeholder text "No sections yet" | add a section named "No sections yet" to an empty layout; it is the only choice, and its editor never opens | the editor opens for every existing section (`selected in layout`), which the `Garden` resize and tile actions require | medium, not executed | Layout.PlaceholderHidesRealSection | Layout.OpensEditorExactlyForSections |

=== FILE: garden.dfy ===
/**
 * The whole session document (inventory, logs, layout) and the page
 * actions as pure transitions on it.
 */
module Garden {
  import opened Wrappers
  import opened PyList
  import Inventory
  import LogStore
  import Layout
  import Reports

  datatype State = State(
    inventory: Inventory.Inventory,
    logs: LogStore.Log,
    layout: Layout.Layout)

  /** Every section's grid has the shape its counts announce. */
  ghost predicate Valid(st: State) {
    forall name :: name in st.layout ==> Layout.WellShaped(st.layout[name])
  }

  /** The document a new session starts from. */
  function Init(): (st: State)
    ensures Valid(st)
    ensures st.logs == [] && st.layout == map[]
    ensures Inventory.Plants(st.inventory) == Ok([])
    ensures st.inventory.Keys == {Inventory.VegetablesKey, Inventory.FruitsKey}
  {
    State(Inventory.Empty, [], map[])
  }

  /** Sections offered by the log form when the layout has none. */
  const DefaultSections: set<string> := {"Indoor", "Backyard", "Front Garden", "Raised Beds"}

  /** The log form's section choices: the layout's sections, or the defaults. */
  function LogFormSections(st: State): (r: set<string>)
    ensures r != {}
    ensures st.layout != map[] ==> forall x :: x in r <==> x in st.layout
    ensures st.layout == map[] ==> r == DefaultSections
  {
    if st.layout == map[] then DefaultSections else st.layout.Keys
  }

  /** "Add to Inventory"; only the inventory can change. */
  function AddToInventory(st: State, c: Inventory.Category, name: string): (r: Result<State, PyError>)
    ensures r.Ok? ==> r.value.logs == st.logs && r.value.layout == st.layout
    ensures r.Ok? <==> name == "" || Inventory.Key(c) in st.inventory
    ensures r.Err? ==> r.error == KeyError(Inventory.Key(c))
    ensures name == "" ==> r == Ok(st)
    ensures r.Ok? && name != "" ==>
              && r.value.inventory.Keys == st.inventory.Keys
              && r.value.inventory[Inventory.Key(c)] == st.inventory[Inventory.Key(c)] + [name]
              && forall k :: k in st.inventory && k != Inventory.Key(c) ==>
                   r.value.inventory[k] == st.inventory[k]
  {
    var inv :- Inventory.Add(st.inventory, c, name);
    Ok(st.(inventory := inv))
  }

  /** "Add Log Entry"; only the log changes, by one record at the end. */
  function SubmitLog(st: State, e: LogStore.Entry): (r: State)
    ensures r.inventory == st.inventory && r.layout == st.layout
    ensures |r.logs| == |st.logs| + 1
    ensures r.logs[..|st.logs|] == st.logs && r.logs[|st.logs|] == e
  {
    st.(logs := LogStore.Append(st.logs, e))
  }

  /** "Save Edit" on the row shown at listing position `i`. */
  function SaveListed(st: State, i: nat, edited: LogStore.Entry): (r: State)
    requires i < |st.logs|
    ensures r.inventory == st.inventory && r.layout == st.layout
    ensures |r.logs| == |st.logs|
    ensures r.logs[|st.logs| - 1 - i] == edited
    ensures forall j :: 0 <= j < |st.logs| && j != |st.logs| - 1 - i ==> r.logs[j] == st.logs[j]
  {
    var idx := LogStore.Listing(st.logs)[i].0;
    st.(logs := LogStore.SaveEdit(st.logs, idx, edited).value)
  }

  /** "Delete Log" on the row shown at listing position `i`. */
  function DeleteListed(st: State, i: nat): (r: State)
    requires i < |st.logs|
    ensures r.inventory == st.inventory && r.layout == st.layout
    ensures |r.logs| == |st.logs| - 1
    ensures forall j :: 0 <= j < |st.logs| - 1 - i ==> r.logs[j] == st.logs[j]
    ensures forall j :: |st.logs| - 1 - i <= j < |r.logs| ==> r.logs[j] == st.logs[j + 1]
  {
    var idx := LogStore.Listing(st.logs)[i].0;
    st.(logs := LogStore.Delete(st.logs, idx).value)
  }

  /** "Add Section"; only the layout changes. */
  function AddSection(st: State, name: string): (r: State)
    ensures Valid(st) ==> Valid(r)
    ensures r.inventory == st.inventory && r.logs == st.logs
    ensures name == "" ==> r == st
    ensures forall k :: k in st.layout && k != name ==> k in r.layout && r.layout[k] == st.layout[k]
    ensures name != "" ==>
              && r.layout.Keys == st.layout.Keys + {name}
              && r.layout[name].rows == Layout.NewSize && r.layout[name].cols == Layout.NewSize
              && Layout.WellShaped(r.layout[name]) && Layout.AllBlank(r.layout[name].grid)
  {
    st.(layout := Layout.AddSection(st.layout, name))
  }

  /** The Rows/Columns inputs of the selected section. */
  function ResizeSection(st: State, name: string, rows: nat, cols: nat): (r: State)
    requires Layout.OpensEditor(st.layout, name)
    ensures Valid(st) ==> Valid(r)
    ensures r.inventory == st.inventory && r.logs == st.logs
    ensures r.layout.Keys == st.layout.Keys
    ensures r.layout[name].rows == rows && r.layout[name].cols == cols
    ensures forall k :: k in st.layout && k != name ==> r.layout[k] == st.layout[k]
    ensures rows != st.layout[name].rows || cols != st.layout[name].cols ==>
              Layout.WellShaped(r.layout[name]) && Layout.AllBlank(r.layout[name].grid)
    ensures rows == st.layout[name].rows && cols == st.layout[name].cols ==>
              r.layout[name] == st.layout[name]
  {
    st.(layout := Layout.ResizeSection(st.layout, name, rows, cols))
  }

  /**
   * The tile loop of the selected section, with options
   * `[""] + vegetables + fruits`; a tile holding anything else becomes "".
   */
  method AssignTiles(st: State, name: string, picks: map<(int, int), nat>) returns (r: Result<State, PyError>)
    requires Valid(st) && Layout.OpensEditor(st.layout, name)
    requires Inventory.Plants(st.inventory).Ok? ==>
               forall p :: p in picks ==> picks[p] <= |Inventory.Plants(st.inventory).value|
    ensures r.Ok? <==> Inventory.Plants(st.inventory).Ok?
    ensures r.Err? ==> r.error == Inventory.Plants(st.inventory).error
    ensures r.Ok? ==>
              && Valid(r.value)
              && r.value.inventory == st.inventory && r.value.logs == st.logs
              && r.value.layout.Keys == st.layout.Keys
    ensures r.Ok? ==>
              var s := r.value.layout[name];
              var old_ := st.layout[name];
              && (forall k :: k in st.layout && k != name ==> r.value.layout[k] == st.layout[k])
              && s.rows == old_.rows && s.cols == old_.cols
              && (forall i, j :: 0 <= i < s.rows && 0 <= j < s.cols ==>
                    s.grid[i][j] == "" || s.grid[i][j] in Inventory.Plants(st.inventory).value)
              && (forall i, j ::
                    (0 <= i < s.rows && 0 <= j < s.cols && (i, j) !in picks
                     && old_.grid[i][j] !in Inventory.Plants(st.inventory).value) ==>
                    s.grid[i][j] == "")
              && (forall i, j ::
                    (0 <= i < s.rows && 0 <= j < s.cols && (i, j) !in picks
                     && old_.grid[i][j] in Inventory.Plants(st.inventory).value) ==>
                    s.grid[i][j] == old_.grid[i][j])
              && (forall i, j ::
                    (0 <= i < s.rows && 0 <= j < s.cols && (i, j) in picks) ==>
                    s.grid[i][j] == ([Layout.Blank] + Inventory.Plants(st.inventory).value)[picks[(i, j)]])
  {
    var plants := Inventory.Plants(st.inventory);
    if plants.Err? {
      return Err(plants.error);
    }
    var options := [Layout.Blank] + plants.value;
    var section := Layout.AssignCells(st.layout[name], options, picks);
    forall i, j | 0 <= i < section.rows && 0 <= j < section.cols
      ensures section.grid[i][j] == "" || section.grid[i][j] in plants.value
    {
      assert section.grid[i][j] in options;
    }
    r := Ok(st.(layout := st.layout[name := section]));
  }

  /**
   * A delete followed, on the next run, by a save: the save lands on the
   * record shown in the row it was made from, and every other surviving
   * record is unchanged.
   */
  lemma DeleteThenSave(st: State, i: nat, j: nat, edited: LogStore.Entry)
    requires i < |st.logs| && j < |st.logs| - 1
    ensures
      var st1 := DeleteListed(st, i);
      var st2 := SaveListed(st1, j, edited);
      var shownBefore := LogStore.Listing(st.logs)[if j < i then j else j + 1];
      && LogStore.Listing(st1.logs)[j].1 == shownBefore.1
      && st2.logs[LogStore.Listing(st1.logs)[j].0] == edited
      && |st2.logs| == |st.logs| - 1
      && forall k :: 0 <= k < |st.logs| && k != LogStore.Listing(st.logs)[i].0 && k != shownBefore.0 ==>
           st2.logs[if k < LogStore.Listing(st.logs)[i].0 then k else k - 1] == st.logs[k]
  {
  }
}

=== FILE: inventory.dfy ===
/**
 * The inventory: a map from category key ("vegetables", "fruits") to the
 * ordered list of plant names in that category. Names may repeat.
 */
module Inventory {
  import opened Wrappers
  import opened Strings
  import opened PyList

  type Inventory = map<string, seq<string>>

  /** The two choices of the "Type" select box. */
  datatype Category = Vegetable | Fruit

  function Label(c: Category): string {
    match c
    case Vegetable => "Vegetable"
    case Fruit => "Fruit"
  }

  /** The inventory key a category is filed under: its label in lower case with a plural "s". */
  function Key(c: Category): string {
    Lower(Label(c)) + "s"
  }

  const VegetablesKey := "vegetables"
  const FruitsKey := "fruits"

  /** The inventory of a fresh session: both categories present and empty. */
  const Empty: Inventory := map[VegetablesKey := [], FruitsKey := []]

  /** The derived keys are exactly the two keys of the stored document. */
  lemma KeyNamesDocumentKeys()
    ensures Key(Vegetable) == VegetablesKey
    ensures Key(Fruit) == FruitsKey
    ensures Key(Vegetable) != Key(Fruit)
  {
  }

  /**
   * The "Add to Inventory" button: an empty name is ignored; otherwise the
   * name is appended to its category, raising KeyError when that category
   * is missing from the (imported) inventory.
   */
  function Add(inv: Inventory, c: Category, name: string): (r: Result<Inventory, PyError>)
    ensures name == "" ==> r == Ok(inv)
    ensures name != "" && Key(c) !in inv ==> r == Err(KeyError(Key(c)))
    ensures name != "" && Key(c) in inv ==>
              && r.Ok?
              && r.value.Keys == inv.Keys
              && |r.value[Key(c)]| == |inv[Key(c)]| + 1
              && r.value[Key(c)][..|inv[Key(c)]|] == inv[Key(c)]
              && r.value[Key(c)][|inv[Key(c)]|] == name
              && forall k :: k in inv && k != Key(c) ==> r.value[k] == inv[k]
  {
    if name == "" then Ok(inv)
    else if Key(c) !in inv then Err(KeyError(Key(c)))
    else Ok(inv[Key(c) := inv[Key(c)] + [name]])
  }

  /**
   * The plants offered by the log form and the layout grid: every vegetable
   * in inventory order, then every fruit in inventory order.
   */
  function Plants(inv: Inventory): (r: Result<seq<string>, PyError>)
    ensures r.Ok? <==> VegetablesKey in inv && FruitsKey in inv
    ensures VegetablesKey !in inv ==> r == Err(KeyError(VegetablesKey))
    ensures VegetablesKey in inv && FruitsKey !in inv ==> r == Err(KeyError(FruitsKey))
    ensures r.Ok? ==>
              && |r.value| == |inv[VegetablesKey]| + |inv[FruitsKey]|
              && (forall x :: x in r.value <==> x in inv[VegetablesKey] || x in inv[FruitsKey])
              && r.value[..|inv[VegetablesKey]|] == inv[VegetablesKey]
              && r.value[|inv[VegetablesKey]|..] == inv[FruitsKey]
  {
    if VegetablesKey !in inv then Err(KeyError(VegetablesKey))
    else if FruitsKey !in inv then Err(KeyError(FruitsKey))
    else Ok(inv[VegetablesKey] + inv[FruitsKey])
  }

  /**
   * A plant added under either category is offered afterwards, one more
   * choice than before.
   */
  lemma AddedPlantIsOffered(inv: Inventory, c: Category, name: string)
    requires name != "" && VegetablesKey in inv && FruitsKey in inv
    ensures Add(inv, c, name).Ok?
    ensures Plants(Add(inv, c, name).value).Ok?
    ensures name in Plants(Add(inv, c, name).value).value
    ensures |Plants(Add(inv, c, name).value).value| == |Plants(inv).value| + 1
  {
    KeyNamesDocumentKeys();
    var inv' := Add(inv, c, name).value;
    assert name in inv'[Key(c)] by {
      assert inv'[Key(c)][|inv[Key(c)]|] == name;
    }
  }
}

=== FILE: layout.dfy ===
/**
 * The garden layout: named sections, each a `rows` x `cols` grid whose
 * cells hold one plant name ("" for an empty tile).
 */
module Layout {
  import opened Wrappers
  import opened PyList

  datatype Section = Section(rows: nat, cols: nat, grid: seq<seq<string>>)

  type Layout = map<string, Section>

  /** The value of an unassigned tile, and option 0 of every tile. */
  const Blank := ""

  /** Rows and columns of a freshly added section. */
  const NewSize: nat := 3

  /** The grid has exactly `rows` rows of exactly `cols` cells. */
  ghost predicate WellShaped(s: Section) {
    && |s.grid| == s.rows
    && forall r :: 0 <= r < |s.grid| ==> |s.grid[r]| == s.cols
  }

  ghost predicate AllBlank(g: seq<seq<string>>) {
    forall r, c :: 0 <= r < |g| && 0 <= c < |g[r]| ==> g[r][c] == Blank
  }

  /** A grid of `rows` rows, each of `cols` blank cells. */
  function BlankGrid(rows: nat, cols: nat): (g: seq<seq<string>>)
    ensures |g| == rows
    ensures forall r :: 0 <= r < rows ==> |g[r]| == cols
    ensures AllBlank(g)
  {
    seq(rows, _ => seq(cols, _ => Blank))
  }

  /**
   * "Add Section": a non-empty name gets a blank 3 x 3 section, replacing
   * any section of that name; an empty name changes nothing.
   */
  function AddSection(layout: Layout, name: string): (r: Layout)
    ensures name == "" ==> r == layout
    ensures name != "" ==>
              && r.Keys == layout.Keys + {name}
              && r[name].rows == NewSize && r[name].cols == NewSize
              && WellShaped(r[name]) && AllBlank(r[name].grid)
              && forall k :: k in layout && k != name ==> r[k] == layout[k]
  {
    if name == "" then layout
    else layout[name := Section(NewSize, NewSize, BlankGrid(NewSize, NewSize))]
  }

  /**
   * Changing the row or column count discards the grid and starts a blank
   * one of the new shape; unchanged counts leave the section as it is.
   */
  function Resize(s: Section, rows: nat, cols: nat): (r: Section)
    ensures rows != s.rows || cols != s.cols ==>
              && r.rows == rows && r.cols == cols
              && WellShaped(r) && AllBlank(r.grid)
    ensures rows == s.rows && cols == s.cols ==> r == s
  {
    if rows != s.rows || cols != s.cols then Section(rows, cols, BlankGrid(rows, cols))
    else s
  }

  /** A resize keeps every section well shaped, whatever it held before. */
  lemma ResizeKeepsShape(s: Section, rows: nat, cols: nat)
    requires WellShaped(s)
    ensures WellShaped(Resize(s, rows, cols))
    ensures Resize(s, rows, cols).rows == rows && Resize(s, rows, cols).cols == cols
  {
  }

  /** Resizes the named section in place; the other sections are untouched. */
  function ResizeSection(layout: Layout, name: string, rows: nat, cols: nat): (r: Layout)
    requires name in layout
    ensures r.Keys == layout.Keys
    ensures r[name].rows == rows && r[name].cols == cols
    ensures WellShaped(layout[name]) ==> WellShaped(r[name])
    ensures rows != layout[name].rows || cols != layout[name].cols ==>
              WellShaped(r[name]) && AllBlank(r[name].grid)
    ensures rows == layout[name].rows && cols == layout[name].cols ==> r[name] == layout[name]
    ensures forall k :: k in layout && k != name ==> r[k] == layout[k]
  {
    layout[name := Resize(layout[name], rows, cols)]
  }

  /**
   * The index a tile's select box starts at: the first position of the
   * tile's current value among the options, or 0 when it is not one.
   */
  function DefaultIndex(options: seq<string>, current: string): (i: nat)
    requires |options| > 0
    ensures i < |options|
    ensures current in options ==> options[i] == current
    ensures current in options ==> forall j :: 0 <= j < i ==> options[j] != current
    ensures current !in options ==> i == 0
  {
    if current in options then IndexOf(options, current) else 0
  }

  /** The value a tile's select box returns: the user's pick, else the default. */
  function Choice(options: seq<string>, current: string, pick: Option<nat>): (v: string)
    requires |options| > 0
    requires pick.Some? ==> pick.value < |options|
    ensures v in options
    ensures pick.None? && current in options ==> v == current
    ensures pick.None? && current !in options ==> v == options[0]
    ensures pick.Some? ==> v == options[pick.value]
  {
    match pick
    case Some(k) => options[k]
    case None => options[DefaultIndex(options, current)]
  }

  /** The pick the user made for tile `(r, c)` in this run, if any. */
  function PickAt(picks: map<(int, int), nat>, r: int, c: int): Option<nat> {
    if (r, c) in picks then Some(picks[(r, c)]) else None
  }

  /**
   * The tile loop: every cell of the grid is replaced by its select box's
   * value, row by row.
   */
  method AssignCells(s: Section, options: seq<string>, picks: map<(int, int), nat>) returns (r: Section)
    requires WellShaped(s)
    requires |options| > 0
    requires forall p :: p in picks ==> picks[p] < |options|
    ensures r.rows == s.rows && r.cols == s.cols && WellShaped(r)
    ensures forall i, j :: 0 <= i < r.rows && 0 <= j < r.cols ==> r.grid[i][j] in options
    ensures forall i, j :: 0 <= i < r.rows && 0 <= j < r.cols && (i, j) !in picks ==>
              r.grid[i][j] == if s.grid[i][j] in options then s.grid[i][j] else options[0]
    ensures forall i, j :: 0 <= i < r.rows && 0 <= j < r.cols && (i, j) in picks ==>
              r.grid[i][j] == options[picks[(i, j)]]
  {
    var grid := s.grid;
    var i := 0;
    while i < s.rows
      invariant 0 <= i <= s.rows
      invariant |grid| == s.rows
      invariant forall k :: 0 <= k < s.rows ==> |grid[k]| == s.cols
      invariant forall k :: i <= k < s.rows ==> grid[k] == s.grid[k]
      invariant forall k, j :: 0 <= k < i && 0 <= j < s.cols ==>
                  grid[k][j] == Choice(options, s.grid[k][j], PickAt(picks, k, j))
    {
      var row := grid[i];
      var j := 0;
      while j < s.cols
        invariant 0 <= j <= s.cols
        invariant |row| == s.cols
        invariant forall c :: j <= c < s.cols ==> row[c] == s.grid[i][c]
        invariant forall c :: 0 <= c < j ==> row[c] == Choice(options, s.grid[i][c], PickAt(picks, i, c))
      {
        row := row[j := Choice(options, row[j], PickAt(picks, i, j))];
        j := j + 1;
      }
      grid := grid[i := row];
      i := i + 1;
    }
    r := Section(s.rows, s.cols, grid);
  }

  /** The placeholder the section select box shows when there are no sections. */
  const Placeholder := "No sections yet"

  /** The choices of the section select box. */
  function SectionChoices(layout: Layout): (r: set<string>)
    ensures r != {}
    ensures forall x :: x in layout ==> x in r
    ensures forall x :: x in r && x !in layout ==> layout == map[] && x == Placeholder
  {
    if layout == map[] then {Placeholder} else layout.Keys
  }

  /** As written: the editor opens unless the selection equals the placeholder text. */
  predicate OpensEditorAsWritten(selected: string) {
    selected != Placeholder
  }

  /** Intended: the editor opens exactly when an existing section is selected. */
  predicate OpensEditor(layout: Layout, selected: string) {
    selected in layout
  }

  /**
   * A section actually named "No sections yet" can be selected but its
   * editor never opens.
   */
  lemma PlaceholderHidesRealSection()
    ensures
      var layout := AddSection(map[], Placeholder);
      && Placeholder in SectionChoices(layout)
      && Placeholder in layout
      && !OpensEditorAsWritten(Placeholder)
  {
  }

  /**
   * The intended test opens the editor for every real section and never for
   * the placeholder; it agrees with the written test whenever no section
   * bears the placeholder's name.
   */
  lemma OpensEditorExactlyForSections(layout: Layout, selected: string)
    requires selected in SectionChoices(layout)
    ensures OpensEditor(layout, selected) <==> layout != map[]
    ensures Placeholder !in layout ==> (OpensEditorAsWritten(selected) <==> OpensEditor(layout, selected))
  {
  }
}

=== FILE: logstore.dfy ===
/**
 * The daily log: an ordered list of entries, identified for editing and
 * deletion by their position only.
 */
module LogStore {
  import opened Wrappers
  import opened PyList

  /** Height and moisture readings; carried along, never inspected. */
  datatype Metrics = Metrics(heightCm: real, moisturePct: real)

  /** One log record; dates are ISO strings (`str(date)`). */
  datatype Entry = Entry(
    date: string,
    section: string,
    plant: string,
    batchKey: string,
    action: string,
    metrics: Metrics,
    notes: string,
    nextVisit: string)

  type Log = seq<Entry>

  /** The batch key the form proposes: the plant, then "-Set-", then the date. */
  function DefaultBatchKey(plant: string, date: string): (r: string)
    ensures |r| == |plant| + 5 + |date|
    ensures r[..|plant|] == plant
    ensures r[|plant|..|plant| + 5] == "-Set-"
    ensures r[|plant| + 5..] == date
  {
    plant + "-Set-" + date
  }

  /** Submitting the log form appends the new record at the end. */
  function Append(log: Log, e: Entry): (r: Log)
    ensures |r| == |log| + 1
    ensures r[..|log|] == log
    ensures r[|log|] == e
  {
    log + [e]
  }

  /**
   * The "All Logs" list: the entries newest first, each row paired with the
   * index the page computes for it, the log length less one less the row
   * number. Every paired index is in bounds and designates the entry shown
   * in its row, and the rows run from the newest entry to the oldest.
   */
  function Listing(log: Log): (r: seq<(int, Entry)>)
    ensures |r| == |log|
    ensures forall i :: 0 <= i < |r| ==> 0 <= r[i].0 < |log| && r[i].1 == log[r[i].0]
    ensures forall i :: 0 <= i < |r| ==> r[i].0 == |log| - 1 - i
  {
    var shown := Reversed(log);
    seq(|log|, i requires 0 <= i < |log| => (|log| - 1 - i, shown[i]))
  }

  /**
   * Every paired index is in bounds and designates exactly the entry shown
   * beside it.
   */
  lemma ListingPairsTrueIndex(log: Log, i: int)
    requires 0 <= i < |log|
    ensures 0 <= Listing(log)[i].0 < |log|
    ensures Listing(log)[i].1 == log[Listing(log)[i].0]
  {
  }

  /** The indices the listing pairs its rows with. */
  ghost function ListedIndices(log: Log): set<int> {
    set i | 0 <= i < |log| :: Listing(log)[i].0
  }

  /** The pairing `i -> idx` is a bijection of `[0, n)` onto itself. */
  lemma ListingIndexBijection(log: Log)
    ensures forall i, j :: 0 <= i < j < |log| ==> Listing(log)[i].0 != Listing(log)[j].0
    ensures forall k :: k in ListedIndices(log) <==> 0 <= k < |log|
  {
    forall k | 0 <= k < |log|
      ensures k in ListedIndices(log)
    {
      assert Listing(log)[|log| - 1 - k].0 == k;
    }
  }

  /** A new entry is listed first, above the previous listing. */
  lemma AppendListsFirst(log: Log, e: Entry)
    ensures Listing(Append(log, e))[0] == (|log|, e)
    ensures Listing(Append(log, e))[1..] == Listing(log)
  {
  }

  /** "Save Edit": the record at `idx` is replaced wholesale by the edited one. */
  function SaveEdit(log: Log, idx: int, edited: Entry): (r: Result<Log, PyError>)
    ensures r.Ok? <==> -|log| <= idx < |log|
    ensures r.Err? ==> r.error == IndexError
    ensures r.Ok? ==>
              var k := Resolve(|log|, idx).value;
              && k == (if idx >= 0 then idx else |log| + idx)
              && |r.value| == |log|
              && r.value[k] == edited
              && forall j :: 0 <= j < |log| && j != k ==> r.value[j] == log[j]
  {
    SetItem(log, idx, edited)
  }

  /** "Delete Log": the record at `idx` is popped from the list. */
  function Delete(log: Log, idx: int): (r: Result<Log, PyError>)
    ensures r.Ok? <==> -|log| <= idx < |log|
    ensures r.Err? ==> r.error == IndexError
    ensures r.Ok? ==>
              var k := Resolve(|log|, idx).value;
              && k == (if idx >= 0 then idx else |log| + idx)
              && |r.value| == |log| - 1
              && (forall j :: 0 <= j < k ==> r.value[j] == log[j])
              && (forall j :: k <= j < |r.value| ==> r.value[j] == log[j + 1])
  {
    match Pop(log, idx)
    case Err(e) => Err(e)
    case Ok((_, rest)) => Ok(rest)
  }

  /**
   * Saving through the listing replaces only the entry shown at position
   * `i`: the listing keeps its indices and every other row.
   */
  lemma SaveThroughListing(log: Log, i: int, edited: Entry)
    requires 0 <= i < |log|
    ensures SaveEdit(log, Listing(log)[i].0, edited).Ok?
    ensures
      var log' := SaveEdit(log, Listing(log)[i].0, edited).value;
      && |Listing(log')| == |Listing(log)|
      && Listing(log')[i] == (Listing(log)[i].0, edited)
      && forall j :: 0 <= j < |log| && j != i ==> Listing(log')[j] == Listing(log)[j]
  {
  }

  /**
   * Deleting through the listing drops the row shown at position `i`: rows
   * above it (newer entries) keep their entry with an index one lower, rows
   * below it move up one place unchanged.
   */
  lemma DeleteThroughListing(log: Log, i: int)
    requires 0 <= i < |log|
    ensures Delete(log, Listing(log)[i].0).Ok?
    ensures
      var before := Listing(log);
      var after := Listing(Delete(log, before[i].0).value);
      && |after| == |before| - 1
      && (forall j :: 0 <= j < i ==> after[j] == (before[j].0 - 1, before[j].1))
      && (forall j :: i <= j < |after| ==> after[j] == before[j + 1])
  {
  }

  /**
   * Had the loop over the reversed log carried on after a delete, the
   * iterator would show the entry at position `idx - 1` of the shortened
   * list while the loop computes the index `idx - 2`: later rows would be
   * paired with the wrong index, and a save through such a row would
   * overwrite a different record than the one displayed. The case
   * `idx == 1` is `ContinuingAfterDeleteWraps`; after `idx == 0` no row
   * is left to show.
   */
  lemma ContinuingAfterDeleteMispairs(log: Log, i: int, edited: Entry)
    requires 0 <= i < |log|
    requires Listing(log)[i].0 >= 2
    ensures
      var idx := Listing(log)[i].0;
      var log' := Delete(log, idx).value;
      var shownNext := log'[idx - 1];
      var computedNext := |log'| - 1 - (i + 1);
      var saved := SaveEdit(log', computedNext, edited).value;
      && computedNext == idx - 2
      && shownNext == log[idx - 1]
      && saved[idx - 1] == shownNext
      && saved[idx - 2] == edited
  {
  }

  /**
   * The same continuation when the deleted record sat at position 1: the
   * iterator shows the oldest record next, but the loop computes the index
   * -1, which Python wraps to the newest remaining record, so a save
   * through that row overwrites the newest record and leaves the shown one
   * as it was (unless only one record remains, when the two coincide).
   */
  lemma ContinuingAfterDeleteWraps(log: Log, i: int, edited: Entry)
    requires 0 <= i < |log|
    requires Listing(log)[i].0 == 1
    ensures
      var log' := Delete(log, 1).value;
      var computedNext := |log'| - 1 - (i + 1);
      var saved := SaveEdit(log', computedNext, edited).value;
      && computedNext == -1
      && log'[0] == log[0]
      && Resolve(|log'|, computedNext) == Some(|log'| - 1)
      && saved[|log'| - 1] == edited
      && (|log| > 2 ==> log'[|log'| - 1] == log[|log| - 1] && saved[0] == log[0])
  {
    var log' := Delete(log, 1).value;
    assert i == |log| - 2;
    assert |log'| == |log| - 1;
    assert Resolve(|log'|, -1) == Some(|log'| - 1);
    if |log| > 2 {
      assert log'[|log'| - 1] == log[|log'|];
    }
  }
}

=== FILE: pylist.dfy ===
/**
 * The few Python list operations the garden log relies on, with Python's
 * index rules: a negative index counts from the end, anything else out of
 * range raises IndexError.
 */
module PyList {
  import opened Wrappers

  /** The Python exceptions the modelled code can raise. */
  datatype PyError = IndexError | KeyError(key: string)

  /** Resolves index `i` against a list of length `n`, as `list[i]` does. */
  function Resolve(n: nat, i: int): (r: Option<nat>)
    ensures r.Some? <==> -(n as int) <= i < n
    ensures r.Some? ==> r.value < n && r.value % n == i % n
    ensures r.Some? && i >= 0 ==> r.value == i
  {
    if 0 <= i < n then Some(i)
    else if -(n as int) <= i < 0 then Some(i + n)
    else None
  }

  /** `s[i] = x`: the list with position `i` replaced. */
  function SetItem<T>(s: seq<T>, i: int, x: T): (r: Result<seq<T>, PyError>)
    ensures r.Ok? <==> -|s| <= i < |s|
    ensures r.Err? ==> r.error == IndexError
    ensures r.Ok? ==>
              var k := Resolve(|s|, i).value;
              && |r.value| == |s|
              && r.value[k] == x
              && forall j :: 0 <= j < |s| && j != k ==> r.value[j] == s[j]
  {
    match Resolve(|s|, i)
    case None => Err(IndexError)
    case Some(k) => Ok(s[k := x])
  }

  /** `s.pop(i)`: the removed element and the shortened list. */
  function Pop<T>(s: seq<T>, i: int): (r: Result<(T, seq<T>), PyError>)
    ensures r.Ok? <==> -|s| <= i < |s|
    ensures r.Err? ==> r.error == IndexError
    ensures r.Ok? ==>
              var k := Resolve(|s|, i).value;
              var (x, t) := r.value;
              && x == s[k]
              && |t| == |s| - 1
              && (forall j :: 0 <= j < k ==> t[j] == s[j])
              && (forall j :: k <= j < |t| ==> t[j] == s[j + 1])
  {
    match Resolve(|s|, i)
    case None => Err(IndexError)
    case Some(k) => Ok((s[k], s[..k] + s[k + 1..]))
  }

  /** `s.index(x)`: the position of the first occurrence of `x`. */
  function IndexOf<T(==)>(s: seq<T>, x: T): (r: nat)
    requires x in s
    ensures r < |s| && s[r] == x
    ensures forall j :: 0 <= j < r ==> s[j] != x
  {
    if s[0] == x then 0 else 1 + IndexOf(s[1..], x)
  }

  /** Python's `reversed(s)`. */
  function Reversed<T>(s: seq<T>): (r: seq<T>)
    ensures |r| == |s|
    ensures forall i :: 0 <= i < |s| ==> r[i] == s[|s| - 1 - i]
  {
    if |s| == 0 then [] else Reversed(s[1..]) + [s[0]]
  }
}

=== FILE: reports.dfy ===
/**
 * The Reports page: the sorted list of batch keys and the timeline of one
 * batch (its entries, stably sorted by date).
 */
module Reports {
  import opened Strings
  import opened LogStore

  /** Every batch key occurring in the log. */
  ghost function KeySet(log: Log): set<string> {
    set e | e in log :: e.batchKey
  }

  lemma KeySetSnoc(log: Log, e: Entry)
    ensures KeySet(log + [e]) == KeySet(log) + {e.batchKey}
  {
    assert forall x :: x in log + [e] <==> x in log || x == e;
  }

  /** The distinct batch keys of the log, in ascending string order. */
  function BatchKeys(log: Log): (r: seq<string>)
    ensures StrictlySorted(r)
    ensures forall k :: k in r <==> k in KeySet(log)
  {
    if |log| == 0 then []
    else
      var init := log[..|log| - 1];
      KeySetSnoc(init, log[|log| - 1]);
      assert init + [log[|log| - 1]] == log;
      InsertUnique(BatchKeys(init), log[|log| - 1].batchKey)
  }

  /**
   * The key list is the only ascending duplicate-free list of the log's
   * keys, so it does not depend on the order of the entries.
   */
  lemma BatchKeysCanonical(log: Log, s: seq<string>)
    requires StrictlySorted(s)
    requires forall k :: k in s <==> k in KeySet(log)
    ensures s == BatchKeys(log)
  {
    StrictlySortedUnique(s, BatchKeys(log));
  }

  lemma BatchKeysIgnoreOrder(log: Log, log': Log)
    requires multiset(log) == multiset(log')
    ensures BatchKeys(log) == BatchKeys(log')
  {
    forall e
      ensures e in log <==> e in log'
    {
      assert e in log <==> e in multiset(log);
      assert e in log' <==> e in multiset(log');
    }
    assert KeySet(log) == KeySet(log');
    BatchKeysCanonical(log', BatchKeys(log));
  }

  /** The entries of batch `key`, in log order. */
  function ForKey(log: Log, key: string): (r: Log)
    ensures forall e :: multiset(r)[e] == if e.batchKey == key then multiset(log)[e] else 0
  {
    if |log| == 0 then []
    else
      var init := log[..|log| - 1];
      assert init + [log[|log| - 1]] == log;
      ForKey(init, key) + IfKeyed(log[|log| - 1], key)
  }

  /** `[e]` when `e` belongs to batch `key`, else nothing. */
  function IfKeyed(e: Entry, key: string): Log {
    if e.batchKey == key then [e] else []
  }

  lemma {:induction false} ForKeyAppend(a: Log, b: Log, key: string)
    ensures ForKey(a + b, key) == ForKey(a, key) + ForKey(b, key)
    decreases |b|
  {
    if |b| > 0 {
      var b0 := b[..|b| - 1];
      assert (a + b)[..|a + b| - 1] == a + b0;
      ForKeyAppend(a, b0, key);
    } else {
      assert a + b == a;
    }
  }

  /** `[e]` when `e` is dated `d`, else nothing. */
  function IfDated(e: Entry, d: string): Log {
    if e.date == d then [e] else []
  }

  /** The entries dated `d`, in their order in `s`. */
  function OnDate(s: Log, d: string): Log {
    if |s| == 0 then []
    else OnDate(s[..|s| - 1], d) + IfDated(s[|s| - 1], d)
  }

  lemma OnDateSnoc(s: Log, e: Entry, d: string)
    ensures OnDate(s + [e], d) == OnDate(s, d) + IfDated(e, d)
  {
    assert (s + [e])[..|s|] == s;
  }

  lemma {:induction false} OnDateAppend(a: Log, b: Log, d: string)
    ensures OnDate(a + b, d) == OnDate(a, d) + OnDate(b, d)
    decreases |b|
  {
    if |b| > 0 {
      var b0 := b[..|b| - 1];
      assert (a + b)[..|a + b| - 1] == a + b0;
      OnDateAppend(a, b0, d);
    } else {
      assert a + b == a;
    }
  }

  lemma {:induction false} OnDateMembers(s: Log, d: string, x: Entry)
    ensures x in OnDate(s, d) <==> x in s && x.date == d
    decreases |s|
  {
    if |s| > 0 {
      var init := s[..|s| - 1];
      OnDateMembers(init, d, x);
      assert s == init + [s[|s| - 1]];
    }
  }

  /** Ascending by date: `Le` is Python's `<=` on the ISO strings. */
  ghost predicate SortedByDate(s: Log) {
    forall i, j :: 0 <= i < j < |s| ==> Le(s[i].date, s[j].date)
  }

  lemma SortedSnoc(s: Log, e: Entry)
    requires SortedByDate(s)
    requires forall x :: x in s ==> Le(x.date, e.date)
    ensures SortedByDate(s + [e])
  {
    forall i, j | 0 <= i < j < |s + [e]|
      ensures Le((s + [e])[i].date, (s + [e])[j].date)
    {
      if j == |s| {
        assert s[i] in s;
      }
    }
  }

  /**
   * One step of insertion sort: `e` goes after every entry dated on or
   * before it, so it follows the entries of its own date.
   */
  function InsertByDate(s: Log, e: Entry): (r: Log)
    requires SortedByDate(s)
    ensures SortedByDate(r)
    ensures multiset(r) == multiset(s) + multiset{e}
    ensures forall d :: OnDate(r, d) == OnDate(s, d) + IfDated(e, d)
    decreases |s|
  {
    if |s| == 0 then
      assert [] + [e] == [e];
      [e]
    else
      var last := s[|s| - 1];
      var init := s[..|s| - 1];
      assert s == init + [last];
      if Le(last.date, e.date) then
        InsertAfterLast(s, e);
        OnDateSnocAll(s, e);
        s + [e]
      else
        var t := InsertByDate(init, e);
        InsertBeforeLast(s, e, t);
        t + [last]
  }

  lemma OnDateSnocAll(s: Log, e: Entry)
    ensures forall d :: OnDate(s + [e], d) == OnDate(s, d) + IfDated(e, d)
  {
    forall d
      ensures OnDate(s + [e], d) == OnDate(s, d) + IfDated(e, d)
    {
      OnDateSnoc(s, e, d);
    }
  }

  lemma InsertAfterLast(s: Log, e: Entry)
    requires SortedByDate(s) && |s| > 0 && Le(s[|s| - 1].date, e.date)
    ensures SortedByDate(s + [e])
  {
    forall x | x in s
      ensures Le(x.date, e.date)
    {
      var i :| 0 <= i < |s| && s[i] == x;
      if i < |s| - 1 {
        LeTransitive(x.date, s[|s| - 1].date, e.date);
      }
    }
    SortedSnoc(s, e);
  }

  lemma InsertBeforeLast(s: Log, e: Entry, t: Log)
    requires SortedByDate(s) && |s| > 0 && !Le(s[|s| - 1].date, e.date)
    requires SortedByDate(t)
    requires multiset(t) == multiset(s[..|s| - 1]) + multiset{e}
    requires forall d :: OnDate(t, d) == OnDate(s[..|s| - 1], d) + IfDated(e, d)
    ensures SortedByDate(t + [s[|s| - 1]])
    ensures multiset(t + [s[|s| - 1]]) == multiset(s) + multiset{e}
    ensures forall d :: OnDate(t + [s[|s| - 1]], d) == OnDate(s, d) + IfDated(e, d)
  {
    assert s == s[..|s| - 1] + [s[|s| - 1]];
    BeforeLastSorted(s, e, t);
    LeReflexive(e.date);
    forall d
      ensures OnDate(t + [s[|s| - 1]], d) == OnDate(s, d) + IfDated(e, d)
    {
      BeforeLastStable(s, e, t, d);
    }
  }

  lemma BeforeLastSorted(s: Log, e: Entry, t: Log)
    requires SortedByDate(s) && |s| > 0 && !Le(s[|s| - 1].date, e.date)
    requires SortedByDate(t)
    requires multiset(t) == multiset(s[..|s| - 1]) + multiset{e}
    ensures SortedByDate(t + [s[|s| - 1]])
  {
    var last := s[|s| - 1];
    var init := s[..|s| - 1];
    LeTotal(last.date, e.date);
    forall x | x in t
      ensures Le(x.date, last.date)
    {
      assert x in multiset(t);
      if x != e {
        assert x in multiset(init);
        var i :| 0 <= i < |init| && init[i] == x;
        assert s[i] == x;
      }
    }
    SortedSnoc(t, last);
  }

  lemma BeforeLastStable(s: Log, e: Entry, t: Log, d: string)
    requires |s| > 0 && s[|s| - 1].date != e.date
    requires OnDate(t, d) == OnDate(s[..|s| - 1], d) + IfDated(e, d)
    ensures OnDate(t + [s[|s| - 1]], d) == OnDate(s, d) + IfDated(e, d)
  {
    var last := s[|s| - 1];
    var init := s[..|s| - 1];
    OnDateSnoc(t, last, d);
    assert OnDate(s, d) == OnDate(init, d) + IfDated(last, d);
    var pt, pi := OnDate(t, d), OnDate(init, d);
    if e.date == d {
      assert IfDated(last, d) == [];
      assert pt + [] == pt;
      assert pi + [] == pi;
    } else {
      assert IfDated(e, d) == [];
      assert pt == pi;
      assert OnDate(s, d) + [] == OnDate(s, d);
    }
  }

  /**
   * The entries of `s` sorted by date, as an insertion sort: ascending,
   * a permutation of `s`, and stable (entries sharing a date keep their
   * order).
   */
  function SortByDate(s: Log): (r: Log)
    ensures SortedByDate(r)
    ensures multiset(r) == multiset(s)
    ensures forall d :: OnDate(r, d) == OnDate(s, d)
  {
    if |s| == 0 then []
    else
      var init := s[..|s| - 1];
      var last := s[|s| - 1];
      assert s == init + [last];
      var t := SortByDate(init);
      var r := InsertByDate(t, last);
      assert forall d :: OnDate(r, d) == OnDate(s, d) by {
        forall d
          ensures OnDate(r, d) == OnDate(s, d)
        {
          OnDateSnoc(init, last, d);
        }
      }
      r
  }

  lemma LastIsLatest(a: Log, x: Entry)
    requires SortedByDate(a) && x in a
    ensures Le(x.date, a[|a| - 1].date)
  {
    var i :| 0 <= i < |a| && a[i] == x;
    if i == |a| - 1 {
      LeReflexive(x.date);
    }
  }

  lemma SameDatesSameMembers(a: Log, b: Log, x: Entry)
    requires forall d :: OnDate(a, d) == OnDate(b, d)
    ensures x in a <==> x in b
  {
    OnDateMembers(a, x.date, x);
    OnDateMembers(b, x.date, x);
  }

  /** Removing the same last entry from both sides keeps every date class equal. */
  lemma SameDatesDropLast(a0: Log, b0: Log, x: Entry)
    requires forall d :: OnDate(a0 + [x], d) == OnDate(b0 + [x], d)
    ensures forall d :: OnDate(a0, d) == OnDate(b0, d)
  {
    forall d
      ensures OnDate(a0, d) == OnDate(b0, d)
    {
      OnDateSnoc(a0, x, d);
      OnDateSnoc(b0, x, d);
      var p, q := OnDate(a0, d), OnDate(b0, d);
      assert p + IfDated(x, d) == q + IfDated(x, d);
      assert p == (p + IfDated(x, d))[..|p|];
      assert q == (q + IfDated(x, d))[..|q|];
    }
  }

  /**
   * A stable sort by date has only one possible result: any ascending
   * sequence with the same entries of each date, in the same order, is it.
   */
  lemma {:induction false} StableSortUnique(a: Log, b: Log)
    requires SortedByDate(a) && SortedByDate(b)
    requires forall d :: OnDate(a, d) == OnDate(b, d)
    ensures a == b
    decreases |a| + |b|
  {
    if |a| == 0 && |b| == 0 {
    } else if |a| == 0 {
      SameDatesSameMembers(a, b, b[0]);
      assert false;
    } else if |b| == 0 {
      SameDatesSameMembers(a, b, a[0]);
      assert false;
    } else {
      var x, y := a[|a| - 1], b[|b| - 1];
      var a0, b0 := a[..|a| - 1], b[..|b| - 1];
      assert a == a0 + [x] && b == b0 + [y];
      SameDatesSameMembers(a, b, x);
      SameDatesSameMembers(a, b, y);
      LastIsLatest(b, x);
      LastIsLatest(a, y);
      LeAntisymmetric(x.date, y.date);
      OnDateSnoc(a0, x, x.date);
      OnDateSnoc(b0, y, x.date);
      assert x == y by {
        var p := OnDate(a0, x.date) + [x];
        var q := OnDate(b0, x.date) + [y];
        assert p == q;
        assert p[|p| - 1] == x && q[|q| - 1] == y;
      }
      SameDatesDropLast(a0, b0, x);
      StableSortUnique(a0, b0);
    }
  }

  /** The timeline of `key`: its entries, sorted by date. */
  function Timeline(log: Log, key: string): (r: Log)
    ensures SortedByDate(r)
    ensures forall e :: multiset(r)[e] == if e.batchKey == key then multiset(log)[e] else 0
    ensures forall d :: OnDate(r, d) == OnDate(ForKey(log, key), d)
  {
    SortByDate(ForKey(log, key))
  }

  /** The timeline is the stable date order of the batch's entries, whichever way it is computed. */
  lemma TimelineIsStableSort(log: Log, key: string, s: Log)
    requires SortedByDate(s)
    requires forall d :: OnDate(s, d) == OnDate(ForKey(log, key), d)
    ensures s == Timeline(log, key)
  {
    StableSortUnique(s, Timeline(log, key));
  }

  /** Every key offered by the select box has a non-empty timeline. */
  lemma ListedKeyHasTimeline(log: Log, key: string)
    requires key in BatchKeys(log)
    ensures |Timeline(log, key)| > 0
  {
  }

  /**
   * Selecting a batch and then a date picks the same entries, in log order,
   * as selecting the date and then the batch; so the timeline lists the
   * batch's entries of each date in the order they were logged.
   */
  lemma {:induction false} ForKeyOnDateCommute(s: Log, key: string, d: string)
    ensures OnDate(ForKey(s, key), d) == ForKey(OnDate(s, d), key)
    decreases |s|
  {
    if |s| > 0 {
      var init, x := s[..|s| - 1], s[|s| - 1];
      assert s == init + [x];
      ForKeyOnDateCommute(init, key, d);
      OnDateAppend(ForKey(init, key), IfKeyed(x, key), d);
      ForKeyAppend(OnDate(init, d), IfDated(x, d), key);
      assert OnDate(IfKeyed(x, key), d) == ForKey(IfDated(x, d), key) by {
        if x.batchKey == key {
          assert OnDate([x], d) == OnDate([], d) + IfDated(x, d);
        }
        if x.date == d {
          assert ForKey([x], key) == ForKey([], key) + IfKeyed(x, key);
        }
      }
    }
  }

  lemma TimelineKeepsLogOrder(log: Log, key: string, d: string)
    ensures OnDate(Timeline(log, key), d) == ForKey(OnDate(log, d), key)
  {
    ForKeyOnDateCommute(log, key, d);
  }
}

=== FILE: strings.dfy ===
/**
 * Python's ordering of `str` values: lexicographic by code point, a proper
 * prefix sorting first. Dates are ISO strings in the garden log and are
 * compared with this order, as are batch keys.
 */
module Strings {

  /** `a <= b` on Python strings. */
  predicate Le(a: string, b: string)
    decreases |a|
  {
    if |a| == 0 then true
    else if |b| == 0 then false
    else if a[0] != b[0] then a[0] < b[0]
    else Le(a[1..], b[1..])
  }

  /** `a < b` on Python strings. */
  predicate Lt(a: string, b: string) {
    Le(a, b) && a != b
  }

  lemma {:induction false} LeReflexive(a: string)
    ensures Le(a, a)
    decreases |a|
  {
    if |a| > 0 {
      LeReflexive(a[1..]);
    }
  }

  lemma {:induction false} LeAntisymmetric(a: string, b: string)
    requires Le(a, b) && Le(b, a)
    ensures a == b
    decreases |a|
  {
    if |a| > 0 {
      LeAntisymmetric(a[1..], b[1..]);
      assert a == [a[0]] + a[1..];
      assert b == [b[0]] + b[1..];
    }
  }

  lemma {:induction false} LeTransitive(a: string, b: string, c: string)
    requires Le(a, b) && Le(b, c)
    ensures Le(a, c)
    decreases |a|
  {
    if |a| > 0 && a[0] == b[0] && b[0] == c[0] {
      LeTransitive(a[1..], b[1..], c[1..]);
    }
  }

  lemma {:induction false} LeTotal(a: string, b: string)
    ensures Le(a, b) || Le(b, a)
    decreases |a|
  {
    if |a| > 0 && |b| > 0 && a[0] == b[0] {
      LeTotal(a[1..], b[1..]);
    }
  }

  /** Exactly one of `a < b`, `a == b`, `b < a` holds. */
  lemma Trichotomy(a: string, b: string)
    ensures Lt(a, b) || a == b || Lt(b, a)
    ensures !(Lt(a, b) && Lt(b, a))
  {
    LeTotal(a, b);
    if Lt(a, b) && Lt(b, a) {
      LeAntisymmetric(a, b);
    }
  }

  lemma LtTransitive(a: string, b: string, c: string)
    requires Lt(a, b) && Lt(b, c)
    ensures Lt(a, c)
  {
    LeTransitive(a, b, c);
    if a == c {
      LeAntisymmetric(a, b);
    }
  }

  /** Strictly ascending: sorted and free of duplicates. */
  ghost predicate StrictlySorted(s: seq<string>) {
    forall i, j :: 0 <= i < j < |s| ==> Lt(s[i], s[j])
  }

  lemma BelowHead(k: string, s: seq<string>)
    requires StrictlySorted(s) && |s| > 0 && Lt(k, s[0])
    ensures forall j :: 0 <= j < |s| ==> Lt(k, s[j])
  {
    forall j | 0 < j < |s|
      ensures Lt(k, s[j])
    {
      LtTransitive(k, s[0], s[j]);
    }
  }

  /**
   * Inserts `k` into an ascending duplicate-free sequence, leaving it
   * unchanged when `k` is already there.
   */
  function InsertUnique(s: seq<string>, k: string): (r: seq<string>)
    requires StrictlySorted(s)
    ensures StrictlySorted(r)
    ensures forall x :: x in r <==> x in s || x == k
  {
    if |s| == 0 then [k]
    else if k == s[0] then s
    else if Lt(k, s[0]) then
      BelowHead(k, s);
      [k] + s
    else
      Trichotomy(k, s[0]);
      var t := InsertUnique(s[1..], k);
      assert forall j :: 0 <= j < |t| ==> Lt(s[0], t[j]) by {
        forall j | 0 <= j < |t|
          ensures Lt(s[0], t[j])
        {
          assert t[j] in t;
          if t[j] != k {
            var m :| 0 <= m < |s[1..]| && s[1..][m] == t[j];
            assert s[m + 1] == t[j];
          }
        }
      }
      [s[0]] + t
  }

  /**
   * An ascending duplicate-free sequence is determined by its elements:
   * this is why `sorted(set(xs))` does not depend on the order of `xs`.
   */
  lemma {:induction false} StrictlySortedUnique(a: seq<string>, b: seq<string>)
    requires StrictlySorted(a) && StrictlySorted(b)
    requires forall x :: x in a <==> x in b
    ensures a == b
    decreases |a|
  {
    if |b| > 0 {
      assert b[0] in b;
    }
    if |a| == 0 {
      assert |b| == 0;
    } else {
      assert a[0] in a;
      assert |b| > 0;
      assert b[0] in b;
      if a[0] != b[0] {
        var i :| 0 <= i < |a| && a[i] == b[0];
        var j :| 0 <= j < |b| && b[j] == a[0];
        assert Lt(a[0], b[0]);
        assert Lt(b[0], a[0]);
        Trichotomy(a[0], b[0]);
        assert false;
      }
      forall x
        ensures x in a[1..] <==> x in b[1..]
      {
        if x in a[1..] {
          var i :| 0 <= i < |a[1..]| && a[1..][i] == x;
          assert Lt(a[0], a[i + 1]);
          assert x in b && x != b[0];
          var j :| 0 <= j < |b| && b[j] == x;
          assert j != 0;
          assert b[1..][j - 1] == x;
        }
        if x in b[1..] {
          var j :| 0 <= j < |b[1..]| && b[1..][j] == x;
          assert Lt(b[0], b[j + 1]);
          assert x in a && x != a[0];
          var i :| 0 <= i < |a| && a[i] == x;
          assert i != 0;
          assert a[1..][i - 1] == x;
        }
      }
      StrictlySortedUnique(a[1..], b[1..]);
      assert a == [a[0]] + a[1..];
      assert b == [b[0]] + b[1..];
    }
  }

  /** `str.lower()` on one character; only ASCII letters change. */
  function LowerChar(c: char): char {
    if 'A' <= c <= 'Z' then (c as int + 32) as char else c
  }

  /** `str.lower()` for text whose letters are ASCII. */
  function Lower(s: string): (r: string)
    ensures |r| == |s|
    ensures forall i :: 0 <= i < |s| ==> r[i] == LowerChar(s[i])
  {
    seq(|s|, i requires 0 <= i < |s| => LowerChar(s[i]))
  }
}

=== FILE: wrappers.dfy ===
/** Failure-carrying results, used wherever the Python code can raise. */
module Wrappers {

  datatype Option<+T> = None | Some(value: T)

  /** `Ok` for a normal return, `Err` for the exception Python would raise. */
  datatype Result<+T, +E> = Ok(value: T) | Err(error: E) {
    predicate IsFailure() {
      Err?
    }

    function PropagateFailure<U>(): Result<U, E>
      requires Err?
    {
      Err(error)
    }

    function Extract(): T
      requires Ok?
    {
      value
    }
  }
}
